=== FILE: README.md ===
# External merge sort, modelled in Dafny

This project models the external merge sort engine of `sort/sort.cpp`: the
class `ExternalMergeSort` and the helper `convertBinaryFileToTextFile`. The
engine sorts a text file of numbers that may not fit in memory, in four steps.

- `CreateAndSplitChunks` reads the unsorted file in batches of `CHUNK_SIZE`
  lines. It skips blank lines and converts the others with `std::stod`. It
  sorts each batch and writes it to the binary chunk file
  `sorted_<iNumOfChunk>.bin`, then increments `iNumOfChunk`.
- `MergeSort` streams two sorted chunk files into a third. It emits the
  smaller current record (the first file's on a tie), drains whichever file
  is left over, and removes both inputs. It fails, touching nothing, when an
  input cannot be opened.
- `MergeAndCleanupSortedChunks` merges files `chunkIndex` and `chunkIndex + 1`
  into the new file `iNumOfChunk`, moving both counters on, until a merge
  fails or until `chunkIndex` reaches `iNumOfChunk`. It then converts file
  `chunkIndex` to the sorted text file and removes it.
- `convertBinaryFileToTextFile` writes the records of a chunk file, in file
  order, one per line.

Each step is modelled in the imperative form of the source, proved against a
functional specification.

- The disk is the class `FileSystem`. It holds:
  - the text of the unsorted file (`None` when it cannot be opened);
  - the chunk files, as a map from index to records;
  - the sorted text file.
- A chunk file is named by its index, so "open fails" is "index absent".
- `ExternalMergeSort` is a class with the counter `numOfChunk`. Its methods
  carry the loops of the source with their invariants.
- Records are `int`. Any totally ordered type would do, since only the order
  matters.
- Three parameters stand in for library code:
  - `std::stod` is the parameter `parse`, where `None` means it throws;
  - `operator<<` on a record is the parameter `format`;
  - `CHUNK_SIZE` is the positive parameter `chunkSize`.

Modules:

- `Records`: sortedness, the reference merge `Merge`, the reference sort
  `SortSeq` (standing for `std::sort`), and the streaming merge
  `MergeStreams` with its three loops.
- `InputLines`: `Lines` (what `std::getline` yields), `ParseLines` (blank
  lines skipped, `None` when a line does not parse), and the batch-by-batch
  chunking `Chunking`, with the loop form `ChunkingFrom`.
- `ChunkFiles`: the chunk map, the files written for a list of runs
  (`Written`, `Placed`), and the merge schedule as the function `Reduce`.
- `SortedText`: the text of the sorted file, and reading it back.
- `ExternalSort`: the classes and the methods of the source.

Where the code and its documentation disagree, the model follows the code:

- An empty but openable input file is read as one blank line. It makes one
  empty chunk file `sorted_0.bin`, not zero chunk files. The sorted file
  then gets the empty text.
- A line that does not parse makes `std::stod` throw. Nothing catches the
  exception, so the run ends after the chunks written so far. `Sort` reports
  this as `completed == false`.
- An input file that cannot be opened only prints a diagnostic. No chunk is
  written, and the run still goes on to merging and conversion. A chunk file
  that cannot be opened makes `MergeSort` return `false`, which ends the
  merge loop. Neither failure reaches the caller of `Sort`.
- An odd number of chunks loses no record. The merge results go to ever
  higher indices, so an odd chunk out is merged in a later round, and
  `ChunkFiles.ReduceSorts` shows that one sorted file holding every record
  is left for every `N >= 1` chunks.
- With a single chunk, the merge loop is not skipped. It tries the merge
  `(0, 1)`, which fails because file 1 is absent.

## Model

| member | source | states |
|---|---|---|
| Records.MergeStreams | sort/sort.cpp:58-84 | The output of the three merge loops is the reference merge of the two streams. Its length is the sum of the input lengths, its records are the multiset union of the inputs, and it is sorted when both inputs are. |
| Records.Drain | sort/sort.cpp:74-84 | A draining loop appends every unread record of one stream to the output, in stream order. |
| Records.MergeMultiset | sort/sort.cpp:64-84 | The merge loses and duplicates no record: the multiset of the merge is the union of the inputs' multisets. |
| Records.MergeSorted | sort/sort.cpp:64-72 | Merging two non-decreasing runs gives a non-decreasing run. |
| Records.MergeFacts | sort/sort.cpp:61-84 | The merge keeps every record and the total length, and keeps sortedness. |
| Records.MergeSymmetric | sort/sort.cpp:65-71 | On sorted runs of plain values, the tie rule (the first file wins) cannot be observed: merging in either order gives the same run. |
| Records.SortSeqSorts | sort/sort.cpp:120 | The batch sort gives a non-decreasing permutation of the batch (same multiset, same length). |
| Records.SortedUnique | sort/sort.cpp:120 | Two sorted runs with the same records are equal, so the sorted order of a set of records is unique. |
| Records.SortIdempotent | sort/sort.cpp:120 | Sorting an already sorted run leaves it unchanged. |
| InputLines.Lines | sort/sort.cpp:105-110 | `std::getline` always yields at least one line from an openable file, even from an empty one. |
| InputLines.JoinLinesOfText | sort/sort.cpp:109 | Reading a text line by line loses nothing: joining the lines with line breaks gives the text back. |
| InputLines.LinesOfJoin | sort/sort.cpp:109 | Lines without line breaks, joined and read back, are the same lines. |
| InputLines.ParseLines | sort/sort.cpp:111-112 | Converting the lines of a batch gives at most one record per line. |
| InputLines.ParsedCount | sort/sort.cpp:111-112 | Blank lines give no record: a batch that converts gives exactly one record per non-blank line. |
| InputLines.ParsesIffEveryLineParses | sort/sort.cpp:111-112 | A stretch of lines converts if and only if every non-blank line in it parses. |
| InputLines.ParseLinesAppend | sort/sort.cpp:108-118 | Converting two stretches of lines one after the other is converting their concatenation. It fails exactly when either part fails. |
| InputLines.ChunkingFromAgrees | sort/sort.cpp:105-131 | The reading loop (position, chunks written so far) produces the batch-by-batch chunking of the lines from that position on, appended to what it has written. |
| InputLines.ChunksBounded | sort/sort.cpp:108-120 | Every chunk written is sorted and holds at most `CHUNK_SIZE` records. |
| InputLines.ChunkingCompletes | sort/sort.cpp:105-118 | The reading gets through the whole input if and only if every non-blank line parses. |
| InputLines.ChunkingKeepsRecords | sort/sort.cpp:111-126 | The records of all chunks together are exactly the records of the non-blank input lines, with multiplicity. |
| InputLines.ChunkCount | sort/sort.cpp:105-131 | A complete reading of `L` lines writes `ceil(L / CHUNK_SIZE)` chunks, one per started batch. An empty batch still makes a chunk, so there is at least one chunk. |
| InputLines.EmptyInputOneChunk | sort/sort.cpp:105-131 | An empty input file makes exactly one chunk, which is empty. |
| ChunkFiles.WrittenPlaced | sort/sort.cpp:121-129 | Writing the runs one after another, at `iNumOfChunk` and upward, gives exactly the files of the runs at consecutive indices over the files already on disk. |
| ChunkFiles.PlacedLive | sort/sort.cpp:121-129 | The files written for `N` runs from index `b` are exactly the indices `b` to `b + N - 1`. |
| ChunkFiles.PlacedTotal | sort/sort.cpp:124-126 | Those files hold, together, exactly the records of the runs. |
| ChunkFiles.PlacedSorted | sort/sort.cpp:120-126 | Files written for sorted runs are sorted. |
| ChunkFiles.MergedLive | sort/sort.cpp:138-144 | One successful merge moves the contiguous range of files from `[ci, n)` to `[ci + 2, n + 1)`. |
| ChunkFiles.MergedTotal | sort/sort.cpp:138-144 | One successful merge keeps the records of the range, with multiplicity. |
| ChunkFiles.MergedSorted | sort/sort.cpp:138-144 | One successful merge keeps every chunk file sorted. |
| ChunkFiles.ReduceSteps | sort/sort.cpp:137-144 | The merge loop advances `chunkIndex` by two per file it writes. It stops only when `chunkIndex` has reached the counter or an input of the next merge is missing. |
| ChunkFiles.ReduceKeepsLive | sort/sort.cpp:137-144 | Starting from a contiguous range of files, the merge loop keeps the files on disk exactly `[chunkIndex, iNumOfChunk)`, and never empties it. |
| ChunkFiles.ReduceEndsWithOneFile | sort/sort.cpp:137-146 | From the files `ci` to `n - 1`, the loop performs `n - ci - 1` merges. It ends with the counter at `2n - ci - 1` and a single file left, at `chunkIndex == 2n - ci - 2`. |
| ChunkFiles.ReduceKeepsRecords | sort/sort.cpp:137-146 | The file the merge loop ends with holds every record of the files it started on. |
| ChunkFiles.ReduceKeepsSorted | sort/sort.cpp:137-144 | The merge loop keeps every chunk file sorted. |
| ChunkFiles.ReduceSorts | sort/sort.cpp:136-146 | From `N >= 1` sorted files `0` to `N - 1` holding the records of a sorted run, the loop stops with `chunkIndex == 2N - 2` and `iNumOfChunk == 2N - 1`. The only file left is `2N - 2`, and it holds that run. |
| SortedText.ReadBack | sort/sort.cpp:21-24 | If every record renders as a non-empty single line that parses back to the same record, then reading the sorted file as input gives back the records it was written from, in order. |
| ExternalSort.ConvertBinaryFileToTextFile | sort/sort.cpp:11-30 | When the chunk file exists, the sorted file becomes the text of its records, in file order, one per line; otherwise the sorted file is left alone. The chunk file is removed either way. |
| ExternalSort.ExternalMergeSort.constructor | sort/sort.cpp:37-40 | A new sorter has the given files and settings, and the counter at 0. |
| ExternalSort.ExternalMergeSort.MergeSort | sort/sort.cpp:49-94 | Succeeds if and only if both inputs exist. On success the result file holds the merge of the inputs and both inputs are removed. On failure nothing changes. The sorted file is never touched. |
| ExternalSort.ExternalMergeSort.ReadBatch | sort/sort.cpp:106-118 | One outer iteration reads up to `CHUNK_SIZE` lines, stopping early at the end of the input. Its result is the conversion of that batch (`None` when a line does not parse). On success it moves the position past the batch. |
| ExternalSort.ExternalMergeSort.CreateAndSplitChunks | sort/sort.cpp:96-134 | Reports whether the whole input was read. The chunks written are those of the chunking, at consecutive indices from the old counter, and the counter is moved past them. An unopenable input writes nothing. |
| ExternalSort.ExternalMergeSort.MergeAndCleanupSortedChunks | sort/sort.cpp:136-149 | The files and counter end as the merge schedule `Reduce` leaves them, minus the converted file `chunkIndex`. The sorted file is the text of that file, when it exists. |
| ExternalSort.ExternalMergeSort.Sort | sort/sort.cpp:42-45 | The full run is chunking, then merging and conversion, and it completes exactly when every non-blank line parses. On a fresh disk, a completed run leaves no chunk file, and the sorted file is the input's records in non-decreasing order, one per line. |
| ExternalSort.FreshChunks | sort/sort.cpp:96-134 | On a fresh disk, a complete run writes `N >= 1` sorted files `0` to `N - 1`, which together hold exactly the input's records. |
| ExternalSort.SortPipeline | sort/sort.cpp:136-148 | After chunking a fresh disk, the merge schedule ends on the single file `2N - 2`, which holds the sorted input. The counter ends at `2N - 1`. Converting that file leaves no chunk file and gives the sorted file its text. |
| ExternalSort.SplitChunks | sort/sort.cpp:105-131 | The loop of `CreateAndSplitChunks` computes the batch-by-batch chunking of the input's lines. |
| ExternalSort.FreshRun | sort/sort.cpp:42-45 | A run reads the whole input if and only if every non-blank line parses. On a fresh disk it then ends with no chunk file and the sorted text of the input's records. |

## Left out

- Floating point: records are `int`, not `double`. NaN and the ordering of
  `-0.0` and `+0.0` are not modelled.
- `std::stod` is the parameter `parse`. Its accepted syntax (leading blanks,
  trailing characters) and its out-of-range exception are not modelled.
- `operator<<` on a `double` (default precision 6, so not exact in general)
  is the parameter `format`.
  - SortedText.ReadBack: holds only under an exact rendering. With the
    source's default precision, reading the sorted file back can give
    different values.
- `CHUNK_SIZE` is computed from a byte budget (100 MB over
  `sizeof(double)`). The model takes the resulting line count as the
  parameter `chunkSize`.
- The binary format of chunk files is not modelled. This covers byte
  layout, a file whose size is not a multiple of eight bytes, and partial
  reads. A chunk file is its sequence of records.
- Stream state bits beyond "the file opens" and "records remain" are not
  modelled, nor are write failures.
- ExternalSort.ExternalMergeSort.MergeSort: reads both inputs as snapshots
  before writing the result. A result index equal to an input index is
  therefore not modelled. On a fresh disk the schedule never produces one.
  With a stale chunk file at index 2N - 1 (N the number of chunks written;
  index 1 for a single chunk), the last merge `(2N - 2, 2N - 1)` writes into
  its own `file2`. The source then truncates `file2` before reading it, and
  the model, like the source, then removes that result. That run loses every
  record and never writes the sorted file, in the model (through `Reduce`)
  as in the source; only the contents of the deleted file differ.
- File names: `sorted_<k>.bin` is the index `k`. `iUnsortedFileName` and
  `iSortedFileName` are the fields of `FileSystem`.
- The diagnostics written to `std::cerr` are left out, because they do not
  change any file.
- Exceptions: the uncaught `std::stod` exception ends `Sort` early. It is
  modelled as `completed == false` with the chunks written so far left on
  disk; process termination is not modelled.
- ExternalSort.ExternalMergeSort.Sort: its closed-form result (no chunk
  file left, the sorted text of the input) is stated for a fresh disk only.
  For a disk with stale chunk files, its contract gives the result through
  the schedule function `Reduce`, without a closed form.
- The argument check in `main`, the random data generator
  `sort/generate_double.cpp`, and the cache and reader/writer-lock sources
  under `cache/` and `shared/` are not part of this model.

=== FILE: chunkfiles.dfy ===
/** The chunk files `sorted_<k>.bin` and the merge schedule of
    `MergeAndCleanupSortedChunks`.

    A chunk file is named by its index `k` alone, so the set of chunk files on
    disk is a map from index to the records the file holds. The schedule merges
    the two oldest files `chunkIndex` and `chunkIndex + 1` into a new file
    `numOfChunk`, then advances `chunkIndex` by two and `numOfChunk` by one,
    until the files run out. */
module ChunkFiles {

  import opened Records

  /** The chunk files on disk: index to contents. */
  type ChunkMap = map<nat, seq<int>>

  /** The files written for runs `cs`, numbered from `base` on. */
  function Placed(base: nat, cs: seq<seq<int>>): (r: ChunkMap)
  {
    map k: nat | base <= k < base + |cs| :: RunAt(base, cs, k)
  }

  /** The run written to file `k`. */
  function RunAt(base: nat, cs: seq<seq<int>>, k: nat): (r: seq<int>)
    requires base <= k < base + |cs|
  {
    cs[k - base]
  }

  /** Exactly the files `lo` up to, not including, `hi` exist. */
  ghost predicate Live(m: ChunkMap, lo: nat, hi: nat)
  {
    forall k: nat :: k in m <==> lo <= k < hi
  }

  /** Every chunk file holds a sorted run. */
  ghost predicate AllSorted(m: ChunkMap)
  {
    forall k :: k in m ==> Sorted(m[k])
  }

  /** The records held by the files `lo` up to `hi`, counted with
      multiplicity. */
  function Total(m: ChunkMap, lo: nat, hi: nat): (r: multiset<int>)
    decreases hi - lo
  {
    if lo >= hi then multiset{}
    else (if lo in m then multiset(m[lo]) else multiset{}) + Total(m, lo + 1, hi)
  }

  /** The disk after `MergeSort(file1, file2, result)` succeeds: `result`
      holds the merge of the two inputs, which are removed. */
  function Merged(m: ChunkMap, file1: nat, file2: nat, result: nat): (r: ChunkMap)
    requires file1 in m && file2 in m
  {
    m[result := Merge(m[file1], m[file2])] - {file1, file2}
  }

  /** Where the merge loop stops: the files, the index of the file left to
      convert, and the chunk counter. */
  datatype MergeState = MergeState(chunks: ChunkMap, chunkIndex: nat, numOfChunk: nat)

  /** The merge loop: while `chunkIndex < numOfChunk` and both files
      `chunkIndex` and `chunkIndex + 1` exist, merge them into file
      `numOfChunk`. A missing input ends the loop (the `break`). */
  function Reduce(m: ChunkMap, chunkIndex: nat, numOfChunk: nat): (r: MergeState)
    decreases numOfChunk - chunkIndex
  {
    if chunkIndex < numOfChunk && chunkIndex in m && chunkIndex + 1 in m then
      Reduce(Merged(m, chunkIndex, chunkIndex + 1, numOfChunk), chunkIndex + 2, numOfChunk + 1)
    else
      MergeState(m, chunkIndex, numOfChunk)
  }

  /** Adding one file past the end of a range adds its records. */
  lemma {:induction false} TotalSnoc(m: ChunkMap, lo: nat, hi: nat)
    requires lo <= hi && hi in m
    ensures Total(m, lo, hi + 1) == Total(m, lo, hi) + multiset(m[hi])
    decreases hi - lo
  {
    if lo < hi {
      TotalSnoc(m, lo + 1, hi);
    }
  }

  /** The records of a range depend only on the files in that range. */
  lemma {:induction false} TotalFrame(m: ChunkMap, m': ChunkMap, lo: nat, hi: nat)
    requires forall k: nat :: lo <= k < hi ==> (k in m <==> k in m')
    requires forall k: nat :: lo <= k < hi && k in m ==> m[k] == m'[k]
    ensures Total(m, lo, hi) == Total(m', lo, hi)
    decreases hi - lo
  {
    if lo < hi {
      TotalFrame(m, m', lo + 1, hi);
    }
  }

  /** One merge step keeps the live range contiguous, moving it from
      `[ci, n)` to `[ci + 2, n + 1)`. */
  lemma MergedLive(m: ChunkMap, ci: nat, n: nat)
    requires Live(m, ci, n) && ci + 1 < n
    ensures Live(Merged(m, ci, ci + 1, n), ci + 2, n + 1)
  {
  }

  /** One merge step loses and duplicates no record. */
  lemma MergedTotal(m: ChunkMap, ci: nat, n: nat)
    requires Live(m, ci, n) && ci + 1 < n
    ensures Total(Merged(m, ci, ci + 1, n), ci + 2, n + 1) == Total(m, ci, n)
  {
    var m' := Merged(m, ci, ci + 1, n);
    MergeMultiset(m[ci], m[ci + 1]);
    MergedLive(m, ci, n);
    TotalFrame(m, m', ci + 2, n);
    TotalSnoc(m', ci + 2, n);
    assert Total(m, ci, n) == multiset(m[ci]) + (multiset(m[ci + 1]) + Total(m, ci + 2, n));
  }

  /** One merge step keeps every chunk file sorted. */
  lemma MergedSorted(m: ChunkMap, f1: nat, f2: nat, r: nat)
    requires f1 in m && f2 in m && AllSorted(m)
    ensures AllSorted(Merged(m, f1, f2, r))
  {
    MergeSorted(m[f1], m[f2]);
  }

  /** The merge loop stops only when it cannot merge, and it has advanced
      `chunkIndex` by two for each file it wrote. */
  lemma {:induction false} ReduceSteps(m: ChunkMap, ci: nat, n: nat)
    ensures Reduce(m, ci, n).chunkIndex - ci == 2 * (Reduce(m, ci, n).numOfChunk - n)
    ensures Reduce(m, ci, n).chunkIndex >= ci && Reduce(m, ci, n).numOfChunk >= n
    ensures !(Reduce(m, ci, n).chunkIndex < Reduce(m, ci, n).numOfChunk
              && Reduce(m, ci, n).chunkIndex in Reduce(m, ci, n).chunks
              && Reduce(m, ci, n).chunkIndex + 1 in Reduce(m, ci, n).chunks)
    decreases n - ci
  {
    if ci < n && ci in m && ci + 1 in m {
      ReduceSteps(Merged(m, ci, ci + 1, n), ci + 2, n + 1);
    }
  }

  /** The merge loop keeps the files on disk a contiguous range, from
      `chunkIndex` up to the counter, and never empties it. */
  lemma {:induction false} ReduceKeepsLive(m: ChunkMap, ci: nat, n: nat)
    requires Live(m, ci, n)
    ensures Live(Reduce(m, ci, n).chunks, Reduce(m, ci, n).chunkIndex, Reduce(m, ci, n).numOfChunk)
    ensures ci < n ==> Reduce(m, ci, n).chunkIndex < Reduce(m, ci, n).numOfChunk
    decreases n - ci
  {
    if ci < n && ci in m && ci + 1 in m {
      MergedLive(m, ci, n);
      ReduceKeepsLive(Merged(m, ci, ci + 1, n), ci + 2, n + 1);
    }
  }

  /** Started on a contiguous, non-empty range of files `[ci, n)`, the merge
      loop stops when one file is left: the counter has grown by one per
      merge, to `2n - ci - 1`, and the file left is the last one written,
      `2n - ci - 2`. */
  lemma ReduceEndsWithOneFile(m: ChunkMap, ci: nat, n: nat)
    requires Live(m, ci, n) && ci < n
    ensures Reduce(m, ci, n).numOfChunk + ci + 1 == 2 * n
    ensures Reduce(m, ci, n).chunkIndex + 1 == Reduce(m, ci, n).numOfChunk
    ensures Reduce(m, ci, n).chunks.Keys == {Reduce(m, ci, n).chunkIndex}
  {
    ReduceSteps(m, ci, n);
    ReduceKeepsLive(m, ci, n);
    var r := Reduce(m, ci, n);
    assert r.chunkIndex in r.chunks;
    assert r.chunkIndex + 1 !in r.chunks;
  }

  /** The file the merge loop ends with holds every record of the range it
      started on. */
  lemma {:induction false} ReduceKeepsRecords(m: ChunkMap, ci: nat, n: nat, records: multiset<int>)
    requires Live(m, ci, n) && ci < n && Total(m, ci, n) == records
    ensures Reduce(m, ci, n).chunkIndex in Reduce(m, ci, n).chunks
    ensures multiset(Reduce(m, ci, n).chunks[Reduce(m, ci, n).chunkIndex]) == records
    decreases n - ci
  {
    if ci + 1 < n {
      MergedLive(m, ci, n);
      MergedTotal(m, ci, n);
      ReduceKeepsRecords(Merged(m, ci, ci + 1, n), ci + 2, n + 1, records);
      ReduceStep(m, ci, n);
    } else {
      ReduceLast(m, ci, n);
    }
  }

  /** The merge loop keeps every chunk file sorted. */
  lemma {:induction false} ReduceKeepsSorted(m: ChunkMap, ci: nat, n: nat)
    requires AllSorted(m)
    ensures AllSorted(Reduce(m, ci, n).chunks)
    decreases n - ci
  {
    if ci < n && ci in m && ci + 1 in m {
      MergedSorted(m, ci, ci + 1, n);
      ReduceKeepsSorted(Merged(m, ci, ci + 1, n), ci + 2, n + 1);
    }
  }

  /** Started on sorted files `0` to `k - 1` holding together the records of
      the sorted run `all`, the merge loop ends with the counter at
      `2k - 1` and the single file `2k - 2`, which holds exactly `all`. */
  lemma ReduceSorts(m: ChunkMap, k: nat, all: seq<int>)
    requires Live(m, 0, k) && k >= 1 && AllSorted(m)
    requires Total(m, 0, k) == multiset(all) && Sorted(all)
    ensures Reduce(m, 0, k).numOfChunk == 2 * k - 1 && Reduce(m, 0, k).chunkIndex == 2 * k - 2
    ensures Reduce(m, 0, k).chunks == map[2 * k - 2 := all]
  {
    var r := Reduce(m, 0, k);
    ReduceEndsWithOneFile(m, 0, k);
    ReduceKeepsRecords(m, 0, k, multiset(all));
    ReduceKeepsSorted(m, 0, k);
    SortedUnique(r.chunks[r.chunkIndex], all);
    assert r.chunks == map[2 * k - 2 := all];
  }

  lemma ReduceStep(m: ChunkMap, ci: nat, n: nat)
    requires Live(m, ci, n) && ci + 1 < n
    ensures Reduce(m, ci, n) == Reduce(Merged(m, ci, ci + 1, n), ci + 2, n + 1)
  {
    assert ci in m && ci + 1 in m;
  }

  lemma ReduceLast(m: ChunkMap, ci: nat, n: nat)
    requires Live(m, ci, n) && ci + 1 == n
    ensures Reduce(m, ci, n) == MergeState(m, ci, n)
    ensures Total(m, ci, n) == multiset(m[ci])
  {
    assert ci + 1 !in m;
    assert Total(m, ci, n) == multiset(m[ci]) + Total(m, ci + 1, n);
  }

  /** The files written for a list of runs are exactly the range they are
      numbered in. */
  lemma PlacedLive(base: nat, cs: seq<seq<int>>)
    ensures Live(Placed(base, cs), base, base + |cs|)
  {
  }

  /** The disk `m` after writing runs `cs`, one after the other, to the files
      numbered from `base` on. */
  function Written(m: ChunkMap, base: nat, cs: seq<seq<int>>): (r: ChunkMap)
  {
    if cs == [] then m
    else Written(m, base, cs[..|cs| - 1])[base + |cs| - 1 := cs[|cs| - 1]]
  }

  /** Writing one more run puts it in the next file. */
  lemma WrittenSnoc(m: ChunkMap, base: nat, cs: seq<seq<int>>, c: seq<int>)
    ensures Written(m, base, cs + [c]) == Written(m, base, cs)[base + |cs| := c]
  {
    assert (cs + [c])[..|cs|] == cs;
  }

  /** Writing the runs one by one gives the files of the runs over the
      files already on disk. */
  lemma {:induction false} WrittenPlaced(m: ChunkMap, base: nat, cs: seq<seq<int>>)
    ensures Written(m, base, cs) == m + Placed(base, cs)
  {
    if cs == [] {
      assert Placed(base, cs) == map[];
      assert m + map[] == m;
    } else {
      var init, last := cs[..|cs| - 1], cs[|cs| - 1];
      assert init + [last] == cs;
      WrittenPlaced(m, base, init);
      PlacedSnoc(m, base, init, last);
    }
  }

  /** Writing one more run after the others adds one file at the next index. */
  lemma PlacedSnoc(m: ChunkMap, base: nat, cs: seq<seq<int>>, c: seq<int>)
    ensures m + Placed(base, cs + [c]) == (m + Placed(base, cs))[base + |cs| := c]
  {
    var left, right := m + Placed(base, cs + [c]), (m + Placed(base, cs))[base + |cs| := c];
    assert left.Keys == right.Keys;
    forall k | k in left ensures left[k] == right[k] {
      if base <= k < base + |cs| {
        assert (cs + [c])[k - base] == cs[k - base];
      }
    }
  }

  /** The files written for a list of runs hold, together, the records of
      the runs. */
  lemma {:induction false} PlacedTotal(base: nat, cs: seq<seq<int>>)
    ensures Total(Placed(base, cs), base, base + |cs|) == multiset(Flatten(cs))
    decreases |cs|
  {
    if cs != [] {
      var files, later := Placed(base, cs), Placed(base + 1, cs[1..]);
      PlacedTotal(base + 1, cs[1..]);
      PlacedTail(base, cs);
      TotalFrame(files, later, base + 1, base + |cs|);
      assert Total(files, base, base + |cs|) == multiset(cs[0]) + Total(files, base + 1, base + |cs|);
      assert Flatten(cs) == cs[0] + Flatten(cs[1..]);
    }
  }

  /** The files of all runs but the first agree with the files written for
      those runs one index further on, and the first run is in file `base`. */
  lemma PlacedTail(base: nat, cs: seq<seq<int>>)
    requires cs != []
    ensures base in Placed(base, cs) && Placed(base, cs)[base] == cs[0]
    ensures forall k: nat :: base + 1 <= k < base + |cs| ==> k in Placed(base, cs) && k in Placed(base + 1, cs[1..])
    ensures forall k: nat :: base + 1 <= k < base + |cs| ==> Placed(base, cs)[k] == Placed(base + 1, cs[1..])[k]
  {
    forall k: nat | base + 1 <= k < base + |cs|
      ensures k in Placed(base, cs) && k in Placed(base + 1, cs[1..])
      ensures Placed(base, cs)[k] == Placed(base + 1, cs[1..])[k]
    {
      assert cs[1..][k - (base + 1)] == cs[k - base];
    }
  }

  /** The files written for sorted runs are sorted. */
  lemma PlacedSorted(base: nat, cs: seq<seq<int>>)
    requires forall k :: 0 <= k < |cs| ==> Sorted(cs[k])
    ensures AllSorted(Placed(base, cs))
  {
  }

}

=== FILE: engine.dfy ===
/** The sorter itself: `ExternalMergeSort` and the file conversion it ends
    with.

    The file system the sorter works on is an object of its own: the unsorted
    text file (read only), the chunk files `sorted_<k>.bin` and the sorted text
    file. Reading a file that cannot be opened is modelled by its absence. */
module ExternalSort {

  import opened Wrappers
  import opened Records
  import opened InputLines
  import opened ChunkFiles
  import opened SortedText

  /** The files the sorter reads and writes. */
  class FileSystem {
    /** The text of the unsorted file; `None` when it cannot be opened. */
    const unsorted: Option<string>
    /** The chunk files on disk. */
    var chunks: ChunkMap
    /** The text of the sorted file; `None` while it does not exist. */
    var sortedFile: Option<string>

    constructor(unsorted: Option<string>, chunks: ChunkMap, sortedFile: Option<string>)
      ensures this.unsorted == unsorted && this.chunks == chunks && this.sortedFile == sortedFile
    {
      this.unsorted := unsorted;
      this.chunks := chunks;
      this.sortedFile := sortedFile;
    }
  }

  /** What `CreateAndSplitChunks` makes of the unsorted file: nothing when it
      cannot be opened, otherwise the chunking of its lines. */
  function Split(unsorted: Option<string>, capacity: Capacity, parse: string -> Option<int>): (r: Chunked)
  {
    match unsorted
    case None => Chunked([], true)
    case Some(text) => ChunkingFrom(Lines(text), 0, [], capacity, parse)
  }

  /** The sorted file after converting chunk file `index`: the text of its
      records when it exists, otherwise the sorted file as it was. */
  function Converted(m: ChunkMap, index: nat, sortedFile: Option<string>, format: int -> string): (r: Option<string>)
  {
    if index in m then Some(Text(m[index], format)) else sortedFile
  }

  /** Write the records of chunk file `index` to the sorted file, one per
      line, then remove the chunk file. A chunk file that cannot be opened
      leaves the sorted file alone. */
  method ConvertBinaryFileToTextFile(fs: FileSystem, index: nat, format: int -> string)
    modifies fs
    ensures fs.sortedFile == Converted(old(fs.chunks), index, old(fs.sortedFile), format)
    ensures fs.chunks == old(fs.chunks) - {index}
  {
    if index !in fs.chunks {
      return;
    }
    var bin := fs.chunks[index];
    var text := "";
    var unread := bin;
    while unread != []
      invariant text + Text(unread, format) == Text(bin, format)
      decreases |unread|
    {
      assert Text(unread, format) == format(unread[0]) + "\n" + Text(unread[1..], format);
      assert text + Text(unread, format) == (text + format(unread[0]) + "\n") + Text(unread[1..], format);
      text, unread := text + format(unread[0]) + "\n", unread[1..];
    }
    assert text + "" == text;
    fs.sortedFile := Some(text);
    fs.chunks := fs.chunks - {index};
  }

  class ExternalMergeSort {
    const fs: FileSystem
    /** `CHUNK_SIZE`: how many lines one batch reads. */
    const chunkSize: Capacity
    /** `std::stod`: `None` where it throws. */
    const parse: string -> Option<int>
    /** How `operator<<` renders a record in the sorted file. */
    const format: int -> string
    /** `iNumOfChunk`: the index of the next chunk file to write. */
    var numOfChunk: nat

    constructor(fs: FileSystem, chunkSize: Capacity, parse: string -> Option<int>, format: int -> string)
      ensures this.fs == fs && this.chunkSize == chunkSize && this.parse == parse && this.format == format
      ensures numOfChunk == 0
    {
      this.fs := fs;
      this.chunkSize := chunkSize;
      this.parse := parse;
      this.format := format;
      numOfChunk := 0;
    }

    /** Sort the unsorted file into the sorted file: split it into sorted
        chunk files, then merge them and convert the last one. A line that
        does not parse ends the run after splitting (`completed` is false);
        the chunk files written until then stay on disk. */
    method Sort() returns (completed: bool)
      modifies this, fs
      ensures var c := Split(fs.unsorted, chunkSize, parse);
              var m := Written(old(fs.chunks), old(numOfChunk), c.chunks);
              var n := old(numOfChunk) + |c.chunks|;
              var r := Reduce(m, 0, n);
        completed == c.complete &&
        (completed ==> numOfChunk == r.numOfChunk && fs.chunks == r.chunks - {r.chunkIndex} &&
                       fs.sortedFile == Converted(r.chunks, r.chunkIndex, old(fs.sortedFile), format)) &&
        (!completed ==> numOfChunk == n && fs.chunks == m && fs.sortedFile == old(fs.sortedFile))
      ensures fs.unsorted.Some? ==> (completed <==> ParseLines(Lines(fs.unsorted.value), parse).Some?)
      ensures old(fs.chunks) == map[] && old(numOfChunk) == 0 && completed && fs.unsorted.Some? ==>
        fs.sortedFile == Some(Text(SortSeq(ParseLines(Lines(fs.unsorted.value), parse).value), format)) &&
        fs.chunks == map[]
    {
      completed := CreateAndSplitChunks();
      if completed {
        MergeAndCleanupSortedChunks();
      }
      if fs.unsorted.Some? {
        FreshRun(fs.unsorted.value, chunkSize, parse, old(fs.sortedFile), format);
      }
    }

    /** Merge chunk files `file1` and `file2` into chunk file `result` and
        remove the two inputs; report failure, changing nothing, when an
        input cannot be opened. */
    static method MergeSort(fs: FileSystem, file1: nat, file2: nat, result: nat) returns (ok: bool)
      modifies fs
      ensures ok <==> file1 in old(fs.chunks) && file2 in old(fs.chunks)
      ensures ok ==> fs.chunks == Merged(old(fs.chunks), file1, file2, result)
      ensures !ok ==> fs.chunks == old(fs.chunks)
      ensures fs.sortedFile == old(fs.sortedFile)
    {
      if file1 !in fs.chunks || file2 !in fs.chunks {
        return false;
      }
      var merged := MergeStreams(fs.chunks[file1], fs.chunks[file2]);
      fs.chunks := fs.chunks[result := merged];
      fs.chunks := fs.chunks - {file1, file2};
      ok := true;
    }

    /** Read the unsorted file in batches of `chunkSize` lines; sort the
        records of each batch and write them to the next chunk file. */
    method CreateAndSplitChunks() returns (completed: bool)
      modifies this, fs
      ensures var c := Split(fs.unsorted, chunkSize, parse);
        completed == c.complete &&
        fs.chunks == Written(old(fs.chunks), old(numOfChunk), c.chunks) &&
        numOfChunk == old(numOfChunk) + |c.chunks|
      ensures fs.sortedFile == old(fs.sortedFile)
    {
      if fs.unsorted.None? {
        return true;
      }
      var lines := Lines(fs.unsorted.value);
      var pos := 0;
      ghost var written: seq<seq<int>> := [];
      ghost var target := Split(fs.unsorted, chunkSize, parse);
      ghost var disk, base := fs.chunks, numOfChunk;

      // The stream stays good exactly while a line is left to read.
      while pos < |lines|
        invariant pos <= |lines|
        invariant ChunkingFrom(lines, pos, written, chunkSize, parse) == target
        invariant fs.chunks == Written(disk, base, written)
        invariant numOfChunk == base + |written|
        invariant fs.sortedFile == old(fs.sortedFile)
        decreases |lines| - pos
      {
        var batch, next := ReadBatch(lines, pos);
        if batch.None? {
          ChunkingFromStops(lines, pos, written, chunkSize, parse);
          assert target == Chunked(written, false);
          return false;
        }
        ChunkingFromStep(lines, pos, next, written, batch.value, chunkSize, parse);
        var run := SortSeq(batch.value);
        WrittenSnoc(disk, base, written, run);
        fs.chunks := fs.chunks[numOfChunk := run];
        numOfChunk := numOfChunk + 1;
        written, pos := written + [run], next;
      }
      completed := true;
    }

    /** One batch of the input: read up to `chunkSize` lines from `start`,
        stopping early at the end of the input, and convert the non-blank
        ones; `None` when one does not parse (the exception `std::stod`
        throws). */
    method ReadBatch(lines: seq<string>, start: nat) returns (batch: Option<seq<int>>, next: nat)
      requires start < |lines|
      ensures batch == Batch(lines, start, chunkSize, parse)
      ensures batch.Some? ==> next == start + BatchSize(|lines| - start, chunkSize)
    {
      ghost var n := BatchSize(|lines| - start, chunkSize);
      var arr: seq<int> := [];
      var pos, i := start, 0;
      while i < chunkSize
        invariant 0 <= i <= chunkSize && pos == start + i < |lines|
        invariant ParseLines(lines[start..pos], parse) == Some(arr)
        decreases chunkSize - i
      {
        var line := lines[pos];
        ParseNext(lines, start, pos, parse);
        if line != "" {
          var value := parse(line);
          if value.None? {
            BatchFails(lines, start, pos, start + n, parse);
            return None, pos;
          }
          arr := arr + [value.value];
        }
        pos, i := pos + 1, i + 1;
        if pos == |lines| {
          break;
        }
      }
      assert pos == start + n;
      return Some(arr), pos;
    }

    /** Merge the chunk files two at a time, oldest first, each into a new
        chunk file, until a merge fails for want of an input or the counter
        is reached; convert the chunk file left to the sorted file. */
    method MergeAndCleanupSortedChunks()
      modifies this, fs
      ensures var r := Reduce(old(fs.chunks), 0, old(numOfChunk));
        numOfChunk == r.numOfChunk && fs.chunks == r.chunks - {r.chunkIndex} &&
        fs.sortedFile == Converted(r.chunks, r.chunkIndex, old(fs.sortedFile), format)
    {
      var chunkIndex := 0;
      while chunkIndex < numOfChunk
        invariant Reduce(fs.chunks, chunkIndex, numOfChunk) == Reduce(old(fs.chunks), 0, old(numOfChunk))
        invariant fs.sortedFile == old(fs.sortedFile)
        decreases numOfChunk - chunkIndex
      {
        var ok := MergeSort(fs, chunkIndex, chunkIndex + 1, numOfChunk);
        if !ok {
          break;
        }
        chunkIndex, numOfChunk := chunkIndex + 2, numOfChunk + 1;
      }
      ConvertBinaryFileToTextFile(fs, chunkIndex, format);
      fs.chunks := fs.chunks - {chunkIndex};
    }
  }

  /** The chunk files a complete run writes on a fresh disk: `k >= 1`
      sorted files numbered `0` to `k - 1`, holding together exactly the
      records of the input. */
  lemma FreshChunks(lines: seq<string>, capacity: Capacity, parse: string -> Option<int>)
    requires lines != [] && ParseLines(lines, parse).Some?
    ensures var c := Chunking(lines, capacity, parse);
      c.complete && |c.chunks| >= 1 &&
      Live(Placed(0, c.chunks), 0, |c.chunks|) && AllSorted(Placed(0, c.chunks)) &&
      Total(Placed(0, c.chunks), 0, |c.chunks|) == multiset(ParseLines(lines, parse).value)
  {
    var c := Chunking(lines, capacity, parse);
    ChunkingKeepsRecords(lines, capacity, parse);
    ChunkCount(lines, capacity, parse);
    ChunksBounded(lines, capacity, parse);
    PlacedLive(0, c.chunks);
    PlacedTotal(0, c.chunks);
    PlacedSorted(0, c.chunks);
  }

  /** On a fresh disk and an input whose every non-blank line parses, the
      run writes `k >= 1` chunk files numbered from 0 and merges them down to
      the single file `2k - 2`, with the counter at `2k - 1`; that file holds
      the records of the input in sorted order, and converting it leaves no
      chunk file behind and gives the sorted file the text of those
      records. */
  lemma SortPipeline(lines: seq<string>, capacity: Capacity, parse: string -> Option<int>,
                     sortedFile: Option<string>, format: int -> string)
    requires lines != [] && ParseLines(lines, parse).Some?
    ensures var c := Chunking(lines, capacity, parse);
            var r := Reduce(Placed(0, c.chunks), 0, |c.chunks|);
      c.complete && |c.chunks| >= 1 &&
      r.numOfChunk == 2 * |c.chunks| - 1 && r.chunkIndex == 2 * |c.chunks| - 2 &&
      r.chunks == map[r.chunkIndex := SortSeq(ParseLines(lines, parse).value)] &&
      r.chunks - {r.chunkIndex} == map[] &&
      Converted(r.chunks, r.chunkIndex, sortedFile, format) == Some(Text(SortSeq(ParseLines(lines, parse).value), format))
  {
    var values := ParseLines(lines, parse).value;
    var cs := Chunking(lines, capacity, parse).chunks;
    FreshChunks(lines, capacity, parse);
    SortSeqSorts(values);
    ReduceSorts(Placed(0, cs), |cs|, SortSeq(values));
    var r := Reduce(Placed(0, cs), 0, |cs|);
    assert r.chunks - {r.chunkIndex} == map[];
  }

  /** A run gets through the input exactly when every non-blank line
      parses; then, on a fresh disk, it leaves no chunk file behind and gives
      the sorted file the text of the input's records in sorted order. */
  lemma FreshRun(text: string, capacity: Capacity, parse: string -> Option<int>,
                 sortedFile: Option<string>, format: int -> string)
    ensures var c := Split(Some(text), capacity, parse);
            var r := Reduce(Written(map[], 0, c.chunks), 0, |c.chunks|);
      (c.complete <==> ParseLines(Lines(text), parse).Some?) &&
      (c.complete ==>
        r.chunks - {r.chunkIndex} == map[] &&
        Converted(r.chunks, r.chunkIndex, sortedFile, format) == Some(Text(SortSeq(ParseLines(Lines(text), parse).value), format)))
  {
    var lines := Lines(text);
    var c := Chunking(lines, capacity, parse);
    SplitChunks(text, capacity, parse);
    ChunkingCompletes(lines, capacity, parse);
    if c.complete {
      WrittenPlaced(map[], 0, c.chunks);
      assert map[] + Placed(0, c.chunks) == Placed(0, c.chunks);
      SortPipeline(lines, capacity, parse, sortedFile, format);
    }
  }

  /** The loop of `CreateAndSplitChunks` computes the batch-by-batch
      chunking of the lines. */
  lemma SplitChunks(text: string, capacity: Capacity, parse: string -> Option<int>)
    ensures Split(Some(text), capacity, parse) == Chunking(Lines(text), capacity, parse)
  {
    var lines := Lines(text);
    var c := Chunking(lines, capacity, parse);
    ChunkingFromAgrees(lines, 0, [], capacity, parse);
    assert lines[0..] == lines;
    assert [] + c.chunks == c.chunks;
  }

}

=== FILE: lines.dfy ===
/** The unsorted input and how `CreateAndSplitChunks` cuts it into chunks.

    The input file is text. `std::getline` hands it out line by line: the
    text is cut at every line break, so a file always yields at least one
    line, an empty file yields one empty line, and a file ending in a line
    break yields an empty last line. Each non-blank line is converted by
    `std::stod`; the conversion is a parameter here (`parse`), `None` standing
    for the exception it throws on a line that is not a number. */
module InputLines {

  import opened Wrappers
  import opened Records

  /** The capacity of the in-memory batch (`CHUNK_SIZE`), counted in lines. */
  type Capacity = n: nat | n > 0 witness 1

  /** The position of the first line break of a text that has one. */
  function LineEnd(text: string): (i: nat)
    requires '\n' in text
    ensures i < |text| && text[i] == '\n' && '\n' !in text[..i]
  {
    if text[0] == '\n' then 0
    else
      var i := 1 + LineEnd(text[1..]);
      assert text[..i] == [text[0]] + text[1..][..i - 1];
      i
  }

  /** The lines `std::getline` yields from a text, in file order. */
  function Lines(text: string): (r: seq<string>)
    ensures |r| >= 1
    decreases |text|
  {
    if '\n' in text then
      var i := LineEnd(text);
      [text[..i]] + Lines(text[i + 1..])
    else
      [text]
  }

  /** The text a list of lines makes when written one after another with a
      line break between two lines. */
  function JoinLines(lines: seq<string>): (r: string)
    requires |lines| >= 1
  {
    if |lines| == 1 then lines[0] else lines[0] + "\n" + JoinLines(lines[1..])
  }

  /** A text is what comes before its first line break, the break, and
      what comes after it. */
  lemma SplitAtLineEnd(text: string)
    requires '\n' in text
    ensures text == text[..LineEnd(text)] + "\n" + text[LineEnd(text) + 1..]
  {
    var i := LineEnd(text);
    assert text == text[..i] + [text[i]] + text[i + 1..];
  }

  /** Reading a text line by line loses nothing: joining the lines gives the
      text back. */
  lemma {:induction false} JoinLinesOfText(text: string)
    ensures JoinLines(Lines(text)) == text
    decreases |text|
  {
    if '\n' in text {
      var i := LineEnd(text);
      var rest := text[i + 1..];
      var lines := Lines(text);
      assert lines[0] == text[..i] && lines[1..] == Lines(rest) by {
        assert lines == [text[..i]] + Lines(rest);
      }
      JoinLinesOfText(rest);
      SplitAtLineEnd(text);
    }
  }

  /** The first line break of two texts joined by a line break is the
      joining one when the first text has none. */
  lemma {:induction false} LineEndOfJoin(first: string, rest: string)
    requires '\n' !in first
    ensures LineEnd(first + "\n" + rest) == |first|
  {
    var text := first + "\n" + rest;
    if first != [] {
      assert text[0] == first[0];
      assert text[1..] == first[1..] + "\n" + rest;
      LineEndOfJoin(first[1..], rest);
    }
  }

  /** Reading a text that starts with a line and a line break yields that
      line, then the lines of the rest. */
  lemma LinesOfJoinStep(first: string, rest: string)
    requires '\n' !in first
    ensures Lines(first + "\n" + rest) == [first] + Lines(rest)
  {
    var text := first + "\n" + rest;
    assert text[|first|] == '\n';
    LineEndOfJoin(first, rest);
    assert text[..|first|] == first;
    assert text[|first| + 1..] == rest;
  }

  /** Conversely, lines without line breaks are exactly the lines of the text
      they join to. */
  lemma {:induction false} LinesOfJoin(lines: seq<string>)
    requires |lines| >= 1
    requires forall k :: 0 <= k < |lines| ==> '\n' !in lines[k]
    ensures Lines(JoinLines(lines)) == lines
  {
    if |lines| > 1 {
      var tail := lines[1..];
      assert forall k :: 0 <= k < |tail| ==> tail[k] == lines[k + 1];
      LinesOfJoin(tail);
      LinesOfJoinStep(lines[0], JoinLines(tail));
      assert lines == [lines[0]] + tail;
    }
  }

  /** The records of the non-blank lines, in line order (blank lines are
      skipped); `None` when `std::stod` throws on one of the lines. */
  function ParseLines(lines: seq<string>, parse: string -> Option<int>): (r: Option<seq<int>>)
    ensures r.Some? ==> |r.value| <= |lines|
  {
    if lines == [] then Some([])
    else
      var init, last := lines[..|lines| - 1], lines[|lines| - 1];
      match ParseLines(init, parse)
      case None => None
      case Some(values) =>
        if last == "" then Some(values)
        else match parse(last)
          case None => None
          case Some(v) => Some(values + [v])
  }

  /** The input parses exactly when every non-blank line does. */
  lemma {:induction false} ParsesIffEveryLineParses(lines: seq<string>, parse: string -> Option<int>)
    ensures ParseLines(lines, parse).Some? <==>
      forall k :: 0 <= k < |lines| && lines[k] != "" ==> parse(lines[k]).Some?
  {
    if lines != [] {
      var init := lines[..|lines| - 1];
      ParsesIffEveryLineParses(init, parse);
      assert forall k :: 0 <= k < |init| ==> init[k] == lines[k];
    }
  }

  /** The number of non-blank lines. */
  function NonBlank(lines: seq<string>): (r: nat)
  {
    if lines == [] then 0
    else NonBlank(lines[..|lines| - 1]) + if lines[|lines| - 1] == "" then 0 else 1
  }

  /** Blank lines give no record: the input gives one record per non-blank
      line. */
  lemma {:induction false} ParsedCount(lines: seq<string>, parse: string -> Option<int>)
    requires ParseLines(lines, parse).Some?
    ensures |ParseLines(lines, parse).value| == NonBlank(lines)
  {
    if lines != [] {
      ParsedCount(lines[..|lines| - 1], parse);
    }
  }

  /** Parsing two stretches of lines one after the other is parsing their
      concatenation. */
  lemma {:induction false} ParseLinesAppend(a: seq<string>, b: seq<string>, parse: string -> Option<int>)
    ensures ParseLines(a + b, parse) ==
      if ParseLines(a, parse).Some? && ParseLines(b, parse).Some?
      then Some(ParseLines(a, parse).value + ParseLines(b, parse).value)
      else None
    decreases |b|
  {
    if b == [] {
      assert a + b == a;
      if ParseLines(a, parse).Some? {
        assert ParseLines(a, parse).value + [] == ParseLines(a, parse).value;
      }
    } else {
      var init, last := b[..|b| - 1], b[|b| - 1];
      assert (a + b)[..|a + b| - 1] == a + init;
      assert (a + b)[|a + b| - 1] == last;
      ParseLinesAppend(a, init, parse);
      var pa, pi := ParseLines(a, parse), ParseLines(init, parse);
      if pa.Some? && pi.Some? && last != "" && parse(last).Some? {
        assert pa.value + pi.value + [parse(last).value] == pa.value + (pi.value + [parse(last).value]);
      }
    }
  }

  /** Reading one more line: a blank line adds nothing, a line that parses
      adds its record, and a line that does not parse ends the run. */
  lemma ParseNext(lines: seq<string>, start: nat, pos: nat, parse: string -> Option<int>)
    requires start <= pos < |lines|
    ensures ParseLines(lines[start..pos + 1], parse) ==
      match ParseLines(lines[start..pos], parse)
      case None => None
      case Some(values) =>
        if lines[pos] == "" then Some(values)
        else match parse(lines[pos])
          case None => None
          case Some(v) => Some(values + [v])
  {
    var read := lines[start..pos + 1];
    assert read[..|read| - 1] == lines[start..pos];
    assert read[|read| - 1] == lines[pos];
  }

  /** A line that does not parse makes every stretch that holds it fail. */
  lemma BatchFails(lines: seq<string>, start: nat, pos: nat, end: nat, parse: string -> Option<int>)
    requires start <= pos < end <= |lines|
    requires ParseLines(lines[start..pos], parse).Some?
    requires lines[pos] != "" && parse(lines[pos]).None?
    ensures ParseLines(lines[start..end], parse).None?
  {
    ParseNext(lines, start, pos, parse);
    assert lines[start..end] == lines[start..pos + 1] + lines[pos + 1..end];
    ParseLinesAppend(lines[start..pos + 1], lines[pos + 1..end], parse);
  }

  /** How many lines the next batch reads: `capacity`, or what is left
      when that is less. */
  function BatchSize(remaining: nat, capacity: Capacity): (r: nat)
  {
    if remaining < capacity then remaining else capacity
  }

  /** The records of the batch that starts at line `start`; `None` when one
      of its lines does not parse. */
  function Batch(lines: seq<string>, start: nat, capacity: Capacity, parse: string -> Option<int>): (r: Option<seq<int>>)
    requires start < |lines|
  {
    ParseLines(lines[start..start + BatchSize(|lines| - start, capacity)], parse)
  }

  /** What `CreateAndSplitChunks` makes of the lines: the chunks it writes,
      in index order, and whether it reached the end of the input. */
  datatype Chunked = Chunked(chunks: seq<seq<int>>, complete: bool)

  /** The lines are read in batches of `capacity` lines (fewer for the last
      batch, which ends with the input); the records of a batch are sorted
      and form one chunk, even when the batch holds only blank lines. A
      batch with a line that does not parse ends the run before its chunk
      is written. */
  function Chunking(lines: seq<string>, capacity: Capacity, parse: string -> Option<int>): (r: Chunked)
    decreases |lines|
  {
    if lines == [] then Chunked([], true)
    else
      var n := BatchSize(|lines|, capacity);
      match ParseLines(lines[..n], parse)
      case None => Chunked([], false)
      case Some(values) =>
        var rest := Chunking(lines[n..], capacity, parse);
        Chunked([SortSeq(values)] + rest.chunks, rest.complete)
  }

  /** Chunking the lines from `start` on stops at once when the batch
      there does not parse. */
  lemma ChunkingAtStops(lines: seq<string>, start: nat, capacity: Capacity, parse: string -> Option<int>)
    requires start < |lines| && Batch(lines, start, capacity, parse).None?
    ensures Chunking(lines[start..], capacity, parse) == Chunked([], false)
  {
    var n := BatchSize(|lines| - start, capacity);
    assert lines[start..][..n] == lines[start..start + n];
  }

  /** Chunking the lines from `start` on, when the batch there parses: its
      sorted records, then the chunking of the lines after it. */
  lemma ChunkingAtStep(lines: seq<string>, start: nat, next: nat, values: seq<int>, capacity: Capacity, parse: string -> Option<int>)
    requires start < |lines| && next == start + BatchSize(|lines| - start, capacity)
    requires Batch(lines, start, capacity, parse) == Some(values)
    ensures var rest := Chunking(lines[next..], capacity, parse);
      Chunking(lines[start..], capacity, parse) == Chunked([SortSeq(values)] + rest.chunks, rest.complete)
  {
    var n := BatchSize(|lines| - start, capacity);
    assert lines[start..][..n] == lines[start..start + n];
    assert lines[start..][n..] == lines[start + n..];
  }

  /** The chunking as the reading loop performs it: from line `pos` on, with
      the chunks `written` so far. */
  function ChunkingFrom(lines: seq<string>, pos: nat, written: seq<seq<int>>, capacity: Capacity, parse: string -> Option<int>): (r: Chunked)
    requires pos <= |lines|
    decreases |lines| - pos
  {
    if pos == |lines| then Chunked(written, true)
    else
      var next := pos + BatchSize(|lines| - pos, capacity);
      match Batch(lines, pos, capacity, parse)
      case None => Chunked(written, false)
      case Some(values) => ChunkingFrom(lines, next, written + [SortSeq(values)], capacity, parse)
  }

  /** A batch that does not parse ends the loop's chunking with the chunks
      written so far. */
  lemma ChunkingFromStops(lines: seq<string>, pos: nat, written: seq<seq<int>>, capacity: Capacity, parse: string -> Option<int>)
    requires pos < |lines| && Batch(lines, pos, capacity, parse).None?
    ensures ChunkingFrom(lines, pos, written, capacity, parse) == Chunked(written, false)
  {
  }

  /** A batch that parses adds its sorted records as the next chunk. */
  lemma ChunkingFromStep(lines: seq<string>, pos: nat, next: nat, written: seq<seq<int>>, values: seq<int>,
                         capacity: Capacity, parse: string -> Option<int>)
    requires pos < |lines| && next == pos + BatchSize(|lines| - pos, capacity)
    requires Batch(lines, pos, capacity, parse) == Some(values)
    ensures ChunkingFrom(lines, pos, written, capacity, parse) == ChunkingFrom(lines, next, written + [SortSeq(values)], capacity, parse)
  {
  }

  /** The loop's chunking agrees with the batch-by-batch definition: it
      appends the chunks of the lines from `pos` on to those written. */
  lemma {:induction false} ChunkingFromAgrees(lines: seq<string>, pos: nat, written: seq<seq<int>>, capacity: Capacity, parse: string -> Option<int>)
    requires pos <= |lines|
    ensures ChunkingFrom(lines, pos, written, capacity, parse) ==
      Chunked(written + Chunking(lines[pos..], capacity, parse).chunks, Chunking(lines[pos..], capacity, parse).complete)
    decreases |lines| - pos
  {
    if pos == |lines| {
      assert lines[pos..] == [];
      assert written + [] == written;
    } else {
      var next := pos + BatchSize(|lines| - pos, capacity);
      match Batch(lines, pos, capacity, parse)
      case None =>
        ChunkingAtStops(lines, pos, capacity, parse);
        ChunkingFromStops(lines, pos, written, capacity, parse);
        assert written + [] == written;
      case Some(values) =>
        ChunkingFromAgrees(lines, next, written + [SortSeq(values)], capacity, parse);
        AgreesAfterBatch(lines, pos, next, written, values, capacity, parse);
    }
  }

  /** One batch of `ChunkingFromAgrees`: agreement after a batch that
      parses gives agreement before it. */
  lemma AgreesAfterBatch(lines: seq<string>, pos: nat, next: nat, written: seq<seq<int>>, values: seq<int>,
                         capacity: Capacity, parse: string -> Option<int>)
    requires pos < |lines| && next == pos + BatchSize(|lines| - pos, capacity)
    requires Batch(lines, pos, capacity, parse) == Some(values)
    requires var rest := Chunking(lines[next..], capacity, parse);
      ChunkingFrom(lines, next, written + [SortSeq(values)], capacity, parse) ==
      Chunked((written + [SortSeq(values)]) + rest.chunks, rest.complete)
    ensures ChunkingFrom(lines, pos, written, capacity, parse) ==
      Chunked(written + Chunking(lines[pos..], capacity, parse).chunks, Chunking(lines[pos..], capacity, parse).complete)
  {
    var run, rest := SortSeq(values), Chunking(lines[next..], capacity, parse);
    var whole := Chunking(lines[pos..], capacity, parse);
    ChunkingAtStep(lines, pos, next, values, capacity, parse);
    assert whole.chunks == [run] + rest.chunks && whole.complete == rest.complete;
    ChunkingFromStep(lines, pos, next, written, values, capacity, parse);
    assert (written + [run]) + rest.chunks == written + whole.chunks;
  }

  /** Every chunk is sorted and holds at most `capacity` records. */
  predicate ChunksWithin(chunks: seq<seq<int>>, capacity: nat)
  {
    forall k :: 0 <= k < |chunks| ==> Sorted(chunks[k]) && |chunks[k]| <= capacity
  }

  /** Every chunk written is sorted and holds at most `capacity` records. */
  lemma {:induction false} ChunksBounded(lines: seq<string>, capacity: Capacity, parse: string -> Option<int>)
    ensures ChunksWithin(Chunking(lines, capacity, parse).chunks, capacity)
    decreases |lines|
  {
    if lines != [] {
      var n := BatchSize(|lines|, capacity);
      var batch := ParseLines(lines[..n], parse);
      if batch.Some? {
        var rest := Chunking(lines[n..], capacity, parse).chunks;
        ChunksBounded(lines[n..], capacity, parse);
        var first := SortSeq(batch.value);
        SortSeqSorts(batch.value);
        ConsWithin(first, rest, capacity);
      }
    }
  }

  lemma ConsWithin(first: seq<int>, rest: seq<seq<int>>, capacity: nat)
    requires Sorted(first) && |first| <= capacity && ChunksWithin(rest, capacity)
    ensures ChunksWithin([first] + rest, capacity)
  {
    var all := [first] + rest;
    forall k | 0 <= k < |all| ensures Sorted(all[k]) && |all[k]| <= capacity {
      if k > 0 {
        assert all[k] == rest[k - 1];
      }
    }
  }

  /** The chunking reaches the end of the input exactly when every non-blank
      line parses. */
  lemma {:induction false} ChunkingCompletes(lines: seq<string>, capacity: Capacity, parse: string -> Option<int>)
    ensures Chunking(lines, capacity, parse).complete <==> ParseLines(lines, parse).Some?
    decreases |lines|
  {
    if lines != [] {
      var n := BatchSize(|lines|, capacity);
      assert lines == lines[..n] + lines[n..];
      ParseLinesAppend(lines[..n], lines[n..], parse);
      ChunkingCompletes(lines[n..], capacity, parse);
    }
  }

  /** A complete chunking holds exactly the records of the non-blank lines:
      none is dropped or repeated. */
  lemma {:induction false} ChunkingKeepsRecords(lines: seq<string>, capacity: Capacity, parse: string -> Option<int>)
    requires ParseLines(lines, parse).Some?
    ensures Chunking(lines, capacity, parse).complete
    ensures multiset(Flatten(Chunking(lines, capacity, parse).chunks)) == multiset(ParseLines(lines, parse).value)
    decreases |lines|
  {
    ChunkingCompletes(lines, capacity, parse);
    if lines != [] {
      var n := BatchSize(|lines|, capacity);
      FirstBatch(lines, n, parse);
      ChunkingKeepsRecords(lines[n..], capacity, parse);
      var batch := ParseLines(lines[..n], parse).value;
      var rest := Chunking(lines[n..], capacity, parse).chunks;
      SortSeqSorts(batch);
      FlattenCons(SortSeq(batch), rest);
    }
  }

  /** The records of the input are those of its first batch, then those of
      the rest. */
  lemma FirstBatch(lines: seq<string>, n: nat, parse: string -> Option<int>)
    requires n <= |lines| && ParseLines(lines, parse).Some?
    ensures ParseLines(lines[..n], parse).Some? && ParseLines(lines[n..], parse).Some?
    ensures ParseLines(lines, parse).value ==
      ParseLines(lines[..n], parse).value + ParseLines(lines[n..], parse).value
  {
    assert lines == lines[..n] + lines[n..];
    ParseLinesAppend(lines[..n], lines[n..], parse);
  }

  lemma FlattenCons(first: seq<int>, rest: seq<seq<int>>)
    ensures Flatten([first] + rest) == first + Flatten(rest)
  {
    assert ([first] + rest)[0] == first && ([first] + rest)[1..] == rest;
  }

  /** An empty input file is one blank line, which makes one empty chunk. */
  lemma EmptyInputOneChunk(capacity: Capacity, parse: string -> Option<int>)
    ensures Chunking(Lines(""), capacity, parse) == Chunked([[]], true)
  {
    var lines := Lines("");
    assert lines == [""];
    assert lines[..1] == lines && lines[1..] == [];
    assert ParseLines(lines[..0], parse) == Some([]);
  }

  /** A complete chunking of `L` lines writes `ceil(L / capacity)` chunks:
      one per started batch of lines, so at least one for any input. */
  lemma {:induction false} ChunkCount(lines: seq<string>, capacity: Capacity, parse: string -> Option<int>)
    requires Chunking(lines, capacity, parse).complete
    ensures (|Chunking(lines, capacity, parse).chunks| - 1) * capacity < |lines|
    ensures |lines| <= |Chunking(lines, capacity, parse).chunks| * capacity
    decreases |lines|
  {
    if lines != [] {
      var n := BatchSize(|lines|, capacity);
      ChunkCount(lines[n..], capacity, parse);
      var k := |Chunking(lines[n..], capacity, parse).chunks|;
      assert |Chunking(lines, capacity, parse).chunks| == k + 1;
      assert (k + 1) * capacity == k * capacity + capacity;
    }
  }

}

=== FILE: output.dfy ===
/** The sorted text file that `convertBinaryFileToTextFile` writes: every
    record of the final chunk, in order, each followed by a line break. How a
    record is rendered by `operator<<` is a parameter (`format`). */
module SortedText {

  import opened Wrappers
  import opened InputLines

  /** The text written for a run of records. */
  function Text(values: seq<int>, format: int -> string): (r: string)
  {
    if values == [] then "" else format(values[0]) + "\n" + Text(values[1..], format)
  }

  /** The rendering of every record is a non-empty single line that the
      input conversion reads back as the same record. */
  ghost predicate ExactFormat(format: int -> string, parse: string -> Option<int>)
  {
    forall v :: format(v) != "" && '\n' !in format(v) && parse(format(v)) == Some(v)
  }

  /** With an exact rendering, reading the sorted file back as an input file
      gives the run it was written from. */
  lemma {:induction false} ReadBack(values: seq<int>, format: int -> string, parse: string -> Option<int>)
    requires ExactFormat(format, parse)
    ensures ParseLines(Lines(Text(values, format)), parse) == Some(values)
  {
    if values != [] {
      var rest := values[1..];
      var v := values[0];
      var first := format(v);
      assert first != "" && '\n' !in first && parse(first) == Some(v) by {
        assert ExactFormat(format, parse);
      }
      ReadBack(rest, format, parse);
      LinesOfJoinStep(first, Text(rest, format));
      ParseFirst(first, Lines(Text(rest, format)), v, parse);
      assert values == [v] + rest;
    }
  }

  /** A first line that parses contributes its record ahead of the rest. */
  lemma ParseFirst(first: string, rest: seq<string>, v: int, parse: string -> Option<int>)
    requires first != "" && parse(first) == Some(v) && ParseLines(rest, parse).Some?
    ensures ParseLines([first] + rest, parse) == Some([v] + ParseLines(rest, parse).value)
  {
    var lines, none: seq<int> := [first], [];
    assert lines[..|lines| - 1] == [];
    assert ParseLines([], parse) == Some(none);
    assert none + [v] == [v];
    assert ParseLines(lines, parse) == Some([v]);
    ParseLinesAppend(lines, rest, parse);
  }

}

=== FILE: records.dfy ===
/** Records and runs of records.

    A record of the sorter is one floating-point value; here it is an `int`,
    which keeps the one property the sorter relies on: a total order. A run is
    a sequence of records, as held by one chunk file or by the in-memory batch.
    This module gives the reference two-way merge, the reference sort that
    stands for `std::sort`, and the streaming merge that `MergeSort` performs
    with its three loops. */
module Records {

  /** Non-decreasing order, the invariant of every persisted chunk. */
  predicate Sorted(s: seq<int>)
  {
    forall i, j :: 0 <= i < j < |s| ==> s[i] <= s[j]
  }

  /** The two-way merge of two runs: the smaller head goes first and the
      first run wins a tie; once one run is empty the other follows
      unchanged. */
  function Merge(a: seq<int>, b: seq<int>): (r: seq<int>)
    decreases |a| + |b|
  {
    if a == [] then b
    else if b == [] then a
    else if a[0] <= b[0] then [a[0]] + Merge(a[1..], b)
    else [b[0]] + Merge(a, b[1..])
  }

  /** The merge loses and duplicates no record. */
  lemma {:induction false} MergeMultiset(a: seq<int>, b: seq<int>)
    ensures multiset(Merge(a, b)) == multiset(a) + multiset(b)
    decreases |a| + |b|
  {
    if a != [] && b != [] {
      if a[0] <= b[0] {
        MergeMultiset(a[1..], b);
        ConsMultiset(a[0], a[1..], Merge(a[1..], b), b);
        assert a == [a[0]] + a[1..];
      } else {
        MergeMultiset(a, b[1..]);
        ConsMultiset(b[0], b[1..], Merge(a, b[1..]), a);
        assert b == [b[0]] + b[1..];
      }
    }
  }

  /** Putting one record in front of a merge of the rest. */
  lemma ConsMultiset(x: int, s: seq<int>, merged: seq<int>, other: seq<int>)
    requires multiset(merged) == multiset(s) + multiset(other)
    ensures multiset([x] + merged) == multiset([x] + s) + multiset(other)
  {
  }

  /** Every record of the run is at least `x`. */
  predicate AllAtLeast(x: int, s: seq<int>)
  {
    forall k :: 0 <= k < |s| ==> x <= s[k]
  }

  lemma AtLeastByMultiset(x: int, s: seq<int>, t: seq<int>)
    requires AllAtLeast(x, s) && multiset(t) <= multiset(s)
    ensures AllAtLeast(x, t)
  {
    forall k | 0 <= k < |t| ensures x <= t[k] {
      assert t[k] in multiset(t);
      assert t[k] in multiset(s);
      assert t[k] in s;
    }
  }

  /** A run with a first record below all the others is sorted when the
      others are. */
  lemma SortedCons(x: int, s: seq<int>)
    requires AllAtLeast(x, s) && Sorted(s)
    ensures Sorted([x] + s)
  {
    var t := [x] + s;
    forall i, j | 0 <= i < j < |t| ensures t[i] <= t[j] {
      if i > 0 {
        assert t[i] == s[i - 1] && t[j] == s[j - 1];
      } else {
        assert t[j] == s[j - 1];
      }
    }
  }

  /** Merging two sorted runs gives a sorted run. */
  lemma {:induction false} MergeSorted(a: seq<int>, b: seq<int>)
    requires Sorted(a) && Sorted(b)
    ensures Sorted(Merge(a, b))
    decreases |a| + |b|
  {
    if a == [] || b == [] {
    } else if a[0] <= b[0] {
      var rest := Merge(a[1..], b);
      MergeSorted(a[1..], b);
      MergeMultiset(a[1..], b);
      assert AllAtLeast(a[0], a[1..] + b);
      assert multiset(rest) == multiset(a[1..] + b);
      AtLeastByMultiset(a[0], a[1..] + b, rest);
      SortedCons(a[0], rest);
    } else {
      var rest := Merge(a, b[1..]);
      MergeSorted(a, b[1..]);
      MergeMultiset(a, b[1..]);
      assert AllAtLeast(b[0], a + b[1..]) by {
        forall k | 0 <= k < |a| ensures b[0] <= a[k] {
          assert a[0] <= a[k] || k == 0;
        }
      }
      assert multiset(rest) == multiset(a + b[1..]);
      AtLeastByMultiset(b[0], a + b[1..], rest);
      SortedCons(b[0], rest);
    }
  }

  /** The reference sort standing for `std::sort` on the in-memory batch:
      each record is merged, as a one-record run, into the sorted rest. */
  function SortSeq(s: seq<int>): (r: seq<int>)
  {
    if s == [] then [] else Merge([s[0]], SortSeq(s[1..]))
  }

  /** The reference sort orders the batch and keeps exactly its records. */
  lemma {:induction false} SortSeqSorts(s: seq<int>)
    ensures Sorted(SortSeq(s))
    ensures multiset(SortSeq(s)) == multiset(s)
    ensures |SortSeq(s)| == |s|
  {
    if s != [] {
      SortSeqSorts(s[1..]);
      MergeFacts([s[0]], SortSeq(s[1..]));
      assert s == [s[0]] + s[1..];
    }
  }

  /** The first record of a sorted run is its least. */
  lemma HeadIsLeast(s: seq<int>, x: int)
    requires Sorted(s) && x in multiset(s)
    ensures s[0] <= x
  {
    var k :| 0 <= k < |s| && s[k] == x;
    assert k == 0 || s[0] <= s[k];
  }

  /** Dropping the first record of a sorted run leaves it sorted. */
  lemma SortedTail(s: seq<int>)
    requires Sorted(s) && s != []
    ensures Sorted(s[1..])
  {
    forall i, j | 0 <= i < j < |s| - 1 ensures s[1..][i] <= s[1..][j] {
      assert s[1..][i] == s[i + 1] && s[1..][j] == s[j + 1];
    }
  }

  lemma TailMultiset(s: seq<int>)
    requires s != []
    ensures multiset(s[1..]) == multiset(s) - multiset{s[0]}
  {
    assert s == [s[0]] + s[1..];
  }

  /** Two non-empty sorted runs with the same records start with the same
      record, and what follows it is again two sorted runs with the same
      records. */
  lemma SameHead(a: seq<int>, b: seq<int>)
    requires Sorted(a) && Sorted(b) && multiset(a) == multiset(b) && a != []
    ensures b != [] && a[0] == b[0]
    ensures Sorted(a[1..]) && Sorted(b[1..]) && multiset(a[1..]) == multiset(b[1..])
  {
    assert a[0] in multiset(a);
    assert b != [];
    assert b[0] in multiset(b);
    HeadIsLeast(a, b[0]);
    HeadIsLeast(b, a[0]);
    TailMultiset(a);
    TailMultiset(b);
    SortedTail(a);
    SortedTail(b);
  }

  /** A multiset has exactly one sorted arrangement: two sorted runs with the
      same records are equal. */
  lemma {:induction false} SortedUnique(a: seq<int>, b: seq<int>)
    requires Sorted(a) && Sorted(b) && multiset(a) == multiset(b)
    ensures a == b
  {
    if a == [] {
      assert |multiset(b)| == 0;
    } else {
      SameHead(a, b);
      SortedUnique(a[1..], b[1..]);
      assert a == [a[0]] + a[1..];
      assert b == [b[0]] + b[1..];
    }
  }

  /** Sorting an already sorted run changes nothing. */
  lemma SortIdempotent(s: seq<int>)
    requires Sorted(s)
    ensures SortSeq(s) == s
  {
    SortSeqSorts(s);
    SortedUnique(SortSeq(s), s);
  }

  /** With a total order on plain values the tie rule cannot be observed:
      merging two sorted runs in either order gives the same run. */
  lemma MergeSymmetric(a: seq<int>, b: seq<int>)
    requires Sorted(a) && Sorted(b)
    ensures Merge(a, b) == Merge(b, a)
  {
    MergeFacts(a, b);
    MergeFacts(b, a);
    SortedUnique(Merge(a, b), Merge(b, a));
  }

  /** What the streaming merge promises beyond computing `Merge`. */
  lemma MergeFacts(a: seq<int>, b: seq<int>)
    ensures multiset(Merge(a, b)) == multiset(a) + multiset(b)
    ensures |Merge(a, b)| == |a| + |b|
    ensures Sorted(a) && Sorted(b) ==> Sorted(Merge(a, b))
  {
    MergeMultiset(a, b);
    assert |Merge(a, b)| == |multiset(Merge(a, b))|;
    if Sorted(a) && Sorted(b) {
      MergeSorted(a, b);
    }
  }

  /** All records of a list of runs, run after run. */
  function Flatten(runs: seq<seq<int>>): (r: seq<int>)
  {
    if runs == [] then [] else runs[0] + Flatten(runs[1..])
  }

  /** Once one run is exhausted the merge is the other run. */
  lemma MergeExhausted(a: seq<int>, b: seq<int>)
    requires a == [] || b == []
    ensures Merge(a, b) == a + b
  {
  }

  /** One step of the first loop of `MergeStreams`: emitting the smaller
      head keeps "emitted, then the merge of what is unread" equal to the
      whole merge. */
  lemma EmitSmaller(out: seq<int>, a: seq<int>, b: seq<int>, whole: seq<int>)
    requires a != [] && b != []
    requires out + Merge(a, b) == whole
    ensures a[0] <= b[0] ==> (out + [a[0]]) + Merge(a[1..], b) == whole
    ensures b[0] < a[0] ==> (out + [b[0]]) + Merge(a, b[1..]) == whole
  {
  }

  /** One step of a draining loop. */
  lemma EmitRest(out: seq<int>, s: seq<int>)
    requires s != []
    ensures (out + [s[0]]) + s[1..] == out + s
  {
    assert s == [s[0]] + s[1..];
  }

  /** A draining loop of `MergeSort`: copy every record still unread in one
      stream to the output, in stream order. */
  method Drain(out: seq<int>, unread: seq<int>) returns (r: seq<int>)
    ensures r == out + unread
  {
    r := out;
    var rest := unread;
    while rest != []
      invariant r + rest == out + unread
      decreases |rest|
    {
      EmitRest(r, rest);
      r, rest := r + [rest[0]], rest[1..];
    }
  }

  /** The streaming merge of `MergeSort`. Each input file is a stream of
      records still to be read; reading one takes it from the front. The
      loop emits the smaller of the two current records (the first stream's
      on a tie) until one stream runs dry; then the first stream and the
      second stream are drained, in that order. */
  method MergeStreams(a: seq<int>, b: seq<int>) returns (out: seq<int>)
    ensures out == Merge(a, b)
    ensures |out| == |a| + |b|
    ensures multiset(out) == multiset(a) + multiset(b)
    ensures Sorted(a) && Sorted(b) ==> Sorted(out)
  {
    out := [];
    var unread1, unread2 := a, b;
    ghost var whole := Merge(a, b);
    while unread1 != [] && unread2 != []
      invariant out + Merge(unread1, unread2) == whole
      decreases |unread1| + |unread2|
    {
      EmitSmaller(out, unread1, unread2, whole);
      if unread1[0] <= unread2[0] {
        out, unread1 := out + [unread1[0]], unread1[1..];
      } else {
        out, unread2 := out + [unread2[0]], unread2[1..];
      }
    }
    MergeExhausted(unread1, unread2);
    assert out + unread1 + unread2 == whole;
    out := Drain(out, unread1);
    out := Drain(out, unread2);
    MergeFacts(a, b);
  }

}

=== FILE: wrappers.dfy ===
/** The conventional optional value, used for files that may be absent and
    for lines that may fail to parse. */
module Wrappers {

  datatype Option<T> = None | Some(value: T)

}
